=== FILE: README.md ===
# Decrypting the bundled AES-256-CBC resource

A Dafny model of `EncryptedFile.swift` from the BERT question-answering iOS
example. That file recovers an encrypted resource that ships inside the app
bundle, using a key written as a hex string. It holds four pieces of logic:

- `Data.init?(fromHexEncodedString:)` drops every space and reads the rest as
  base-16 byte pairs (section 8 of RFC 4648). It returns `nil` as soon as one
  pair does not parse. Modelled in `hex.dfy`, module `HexData`.
- `decryptFile(fileName:keyHex:)` is a chain of guards: resource lookup, key
  decoding, and a gate on a 32-byte key. It then makes one `CCCrypt` call
  (AES, PKCS#7 padding, nil IV) into a buffer one block larger than the
  ciphertext. On success it turns the first `numBytesDecrypted` bytes into
  ASCII text. Modelled in `encrypted_file.dfy`, module `EncryptedFile`.
- `readEncryptedFile(fileName:decryptionKey:)` is the same chain without the
  key-size gate. It always passes a key length of 32, even when the key is
  shorter, and uses a buffer exactly as long as the ciphertext. On success it returns the buffer's
  `prefix(numBytesDecrypted)`. Same module.
- `removePKCS7Padding(from:)` reads the last byte `p` and drops the last `p`
  bytes without looking at them. Nothing in the file calls it. Modelled in
  `pkcs7.dfy`, module `Pkcs7`, next to PKCS#7 padding as section 6.3 of
  RFC 5652 defines it.

`commoncrypto.dfy` (module `CommonCrypto`) holds the constants the code
passes (`kCCKeySizeAES256` = 32, `kCCBlockSizeAES128` = 16, the
`CCCryptorStatus` codes). It also defines the shape of one `CCCrypt` call as a
request and a reply. `ints.dfy` has the fixed-width integer types. `wrappers.dfy`
has `Option`, which stands for Swift's optionals.

Everything outside the file is a field of `EncryptedFile.Host`, a datatype of
function values: URL parsing with `lastPathComponent`, the bundle path lookup,
`Data(contentsOf:)`, `CCCrypt` and `String(data:encoding: .ascii)`. Each
pipeline returns a `Run`: the `CCCrypt` request it made (`None` when a guard
stopped it first) and the value it returns. So "returns `nil` without calling
the cipher" is `Run(None, None)`.

The `CCCrypt` function value has two hypotheses. `WritesInPlace` says the
output buffer keeps its capacity, because the call writes into the caller's
`Data`. `ReportsWithinCapacity` says that on success the reported count fits
in the buffer. The AES computation is not modelled. The round-trip lemmas
take an `encrypt` function and a hypothesis `Inverts` that the cipher undoes
it.

A Swift trap is a precondition. The file has four traps:
- `removePKCS7Padding` traps on empty input.
- `removePKCS7Padding` also traps when `p` is larger than the input.
- The hex loop traps when it reaches a lone last character, which
  `HexData.Traps` captures.
- `decryptFile` converts a negative status with `UInt32(cryptStatus)`, which
  traps.

Findings lists the hex-loop trap, the status trap, and the `p`-too-large trap
(inside its row on the unchecked padding). It also lists the decoder's
acceptance of signed pairs and the key over-read in `readEncryptedFile`.
A key shorter than 32 bytes makes `CCCrypt` read past the key buffer there,
which is undefined behaviour rather than a trap. The model still records
such a call as an ordinary request, and `CommonCrypto.ReadsWithinKey` marks
which requests stay inside the key.

Each decrypt function is modelled twice. `DecryptFileAsWritten` and
`ReadEncryptedFileAsWritten` follow the code exactly: they decode the key
with `HexData.DecodeHex`, so a key such as `"+0"` repeated 32 times reaches
`CCCrypt`, and `decryptFile` tests success with the trapping
`CommonCrypto.SuccessAsWritten`. Their traps are the preconditions
`DecryptFileDefined` and `ReadEncryptedFileDefined`, which only apply once
the resource has loaded, so the lookup-before-decode order is part of the
model. `DecryptFile` and `ReadEncryptedFile` are the corrected functions.
Both decode with `HexData.DecodeHexStrict`. `decryptFile` tests with
`CommonCrypto.IsSuccess`. `readEncryptedFile` gets the 32-byte key gate of
line 41, so it never passes a key length larger than the key. Lemmas prove
that the corrected and as-written functions agree on every 32-byte key of
hex digits, and show where they part.

Facts about the code that a reader might expect otherwise:
- There is no separate ciphertext-alignment check. Alignment is left to
  `CCCrypt`.
- `CCCrypt` is always asked to strip the padding. There is no
  `stripPadding` switch.
- `removePKCS7Padding` accepts `p = 0` and returns the data unchanged. It
  never compares the padding bytes with `p`.
- Non-ASCII output is whatever `String(data:encoding: .ascii)` does. Here that
  is a `Host` field.
- An odd-length key is a trap in the code, not a decode failure. See Findings.

## Model

| member | source | states |
|---|---|---|
| HexData.RemoveSpaces | lite/examples/bert_qa/ios/BertQACore/EncryptedFile.swift:6 | no space is left in the cleaned string and it is never longer than the input |
| HexData.RemoveSpacesKeepsOthers | lite/examples/bert_qa/ios/BertQACore/EncryptedFile.swift:6 | cleaning removes exactly the spaces: every other character is kept as often as it occurs |
| HexData.RemoveSpacesAppend | lite/examples/bert_qa/ios/BertQACore/EncryptedFile.swift:6 | cleaning works character by character: cleaning a concatenation concatenates the cleaned parts |
| HexData.RemoveSpacesKeepsSpaceFree | lite/examples/bert_qa/ios/BertQACore/EncryptedFile.swift:6 | a string without spaces is unchanged, so cleaning twice is cleaning once |
| HexData.ParsePair | lite/examples/bert_qa/ios/BertQACore/EncryptedFile.swift:11-12 | `UInt8(_, radix: 16)` on a pair: two hex digits give 16·hi + lo; `+` before a digit gives that digit; `-0` gives 0; nothing else parses, so `-` before any other digit is rejected |
| HexData.DecodePairs | lite/examples/bert_qa/ios/BertQACore/EncryptedFile.swift:9-18 | the pair loop: on success one byte per pair and byte i is pair i; `None` exactly when some pair fails, so a failure never yields part of the result |
| HexData.Traps | lite/examples/bert_qa/ios/BertQACore/EncryptedFile.swift:10-11 | the loop runs off the cleaned string exactly when its length is odd and every full pair before the lone last character parses, so `index(_:offsetBy: 2)` reaches past `endIndex` |
| HexData.DecodeHex | lite/examples/bert_qa/ios/BertQACore/EncryptedFile.swift:5-21 | the initializer as written, defined wherever it does not trap: output length is half the cleaned length, byte i is the parse of cleaned characters 2i and 2i+1, and `nil` exactly when some pair fails |
| HexData.DecodeHexLoop | lite/examples/bert_qa/ios/BertQACore/EncryptedFile.swift:6-20 | the initializer's own index loop, stepping by two and appending, computes the same result as `DecodeHex` |
| HexData.DecodeHexStrict | lite/examples/bert_qa/ios/BertQACore/EncryptedFile.swift:5-21 | the intended decoder: it succeeds exactly when the cleaned string has even length and only hex digits, and byte i then has the value of digits 2i and 2i+1 |
| HexData.StrictAgreesOnDigits | lite/examples/bert_qa/ios/BertQACore/EncryptedFile.swift:12 | on even-length all-digit input the initializer as written does not trap and agrees with the strict decoder |
| HexData.StrictRejectsNonDigit | lite/examples/bert_qa/ios/BertQACore/EncryptedFile.swift:12-15 | one non-digit character in the cleaned string, at any position, makes the strict decoder fail |
| HexData.DecodeHexAcceptsSignedPairs | lite/examples/bert_qa/ios/BertQACore/EncryptedFile.swift:12 | `"+a-0"` decodes to bytes 10 and 0 as written, but is rejected by the strict decoder |
| HexData.DecodeHexTrapsOnOddLength | lite/examples/bert_qa/ios/BertQACore/EncryptedFile.swift:9-17 | on `"abc"` the loop reaches the lone `c` with every earlier pair parsed, so the offset-by-two step traps; the strict decoder returns `None` |
| HexData.HexRoundTrip | lite/examples/bert_qa/ios/BertQACore/EncryptedFile.swift:5-21 | decoding the lower-case hex encoding of any bytes gives those bytes back |
| HexData.HexRoundTripAsWritten | lite/examples/bert_qa/ios/BertQACore/EncryptedFile.swift:9-20 | the initializer as written does not trap on the hex encoding of any bytes and decodes it to those bytes |
| HexData.HexRoundTripSpaced | lite/examples/bert_qa/ios/BertQACore/EncryptedFile.swift:6-20 | hex with one space between byte pairs, as in `"00 11 22"`, decodes to the same bytes |
| Pkcs7.RemovePkcs7Padding | lite/examples/bert_qa/ios/BertQACore/EncryptedFile.swift:142-148 | needs a last byte `p` and `p <= count`; the result is the prefix of length `count - p`, and the data unchanged when `p = 0` |
| Pkcs7.UnpadInvertsPad | lite/examples/bert_qa/ios/BertQACore/EncryptedFile.swift:142-148 | removing the padding of any PKCS#7-padded message gives the message back |
| Pkcs7.UnpadTrustsLengthByte | lite/examples/bert_qa/ios/BertQACore/EncryptedFile.swift:143-147 | the removed bytes are never read: any filler followed by a length byte covering it unpads to the same message |
| Pkcs7.UnpadAcceptsMalformedPadding | lite/examples/bert_qa/ios/BertQACore/EncryptedFile.swift:144-146 | a block ending in 0x07 0x02 is stripped of two bytes even though it is not valid padding; the checked removal refuses it |
| Pkcs7.RemovePkcs7PaddingChecked | lite/examples/bert_qa/ios/BertQACore/EncryptedFile.swift:142-148 | the intended removal succeeds exactly on valid padding, and its result padded again is the input |
| Pkcs7.CheckedUnpadInvertsPad | lite/examples/bert_qa/ios/BertQACore/EncryptedFile.swift:142-148 | the checked removal also undoes padding |
| CommonCrypto.SuccessAsWritten | lite/examples/bert_qa/ios/BertQACore/EncryptedFile.swift:67 | `UInt32(cryptStatus) == UInt32(kCCSuccess)` is defined only for a non-negative status, and there it holds exactly for success |
| CommonCrypto.SuccessAsWrittenTrapsOnEveryError | lite/examples/bert_qa/ios/BertQACore/EncryptedFile.swift:67 | every CommonCrypto error status is negative, so the conversion as written traps on each of them |
| CommonCrypto.IsSuccess | lite/examples/bert_qa/ios/BertQACore/EncryptedFile.swift:67-74 | the intended test is defined for every status, is false for every error, and agrees with the written test wherever that is defined |
| EncryptedFile.LoadResource | lite/examples/bert_qa/ios/BertQACore/EncryptedFile.swift:25-34 | both functions read the resource as `URL(string:)`, `lastPathComponent`, `Bundle.main.path(forResource:ofType: nil)` and `try? Data(contentsOf:)`; a `nil` at any step means no resource (lines 79-94 do the same) |
| EncryptedFile.DecryptFileAsWritten | lite/examples/bert_qa/ios/BertQACore/EncryptedFile.swift:24-75 | `decryptFile` as written, defined wherever it does not trap: `CCCrypt` is called exactly when the resource loads, the initializer decodes the key and the result is 32 bytes long. The call passes that key, its length, a nil IV, PKCS#7 padding and capacity `count + 16`. A value comes back only on success and is built from exactly the first `numBytesDecrypted` bytes |
| EncryptedFile.DecryptFileDefined | lite/examples/bert_qa/ios/BertQACore/EncryptedFile.swift:25-67 | `decryptFile` does not trap: if the resource loads, the key's hex loop (line 11, reached from line 36) must not run off the string. If that key is 32 bytes, the status `CCCrypt` returns for the request the function makes must be non-negative. With no resource nothing is required |
| EncryptedFile.ReadEncryptedFileAsWritten | lite/examples/bert_qa/ios/BertQACore/EncryptedFile.swift:77-140 | `readEncryptedFile` as written, defined wherever it does not trap: `CCCrypt` is called when the resource loads and the initializer decodes the key, whatever the key's length. The call always uses key length 32, so it stays inside the key exactly when the key has at least 32 bytes, and capacity `count`. The result is present exactly on success and is the buffer's `numBytesDecrypted` prefix, never longer than the ciphertext |
| EncryptedFile.ReadEncryptedFileDefined | lite/examples/bert_qa/ios/BertQACore/EncryptedFile.swift:79-100 | `readEncryptedFile` does not trap: if the resource loads, the key's hex loop (line 11, reached from line 97) must not run off the string |
| EncryptedFile.DecryptFile | lite/examples/bert_qa/ios/BertQACore/EncryptedFile.swift:24-75 | the corrected `decryptFile`: the same call and result as written, except that the key is decoded with `DecodeHexStrict` and an error status gives `nil` instead of a trap |
| EncryptedFile.ReadEncryptedFile | lite/examples/bert_qa/ios/BertQACore/EncryptedFile.swift:77-140 | the corrected `readEncryptedFile`: the key is decoded with `DecodeHexStrict` and must be 32 bytes long, so the key length 32 it passes never reads past the key; otherwise the same call and result as written |
| EncryptedFile.DecryptFileAgreesOnDigitKeys | lite/examples/bert_qa/ios/BertQACore/EncryptedFile.swift:36-67 | on a key of hex digits whose decryption does not trap, the corrected `decryptFile` returns exactly what the code returns |
| EncryptedFile.ReadEncryptedFileAgreesOnDigitKeys | lite/examples/bert_qa/ios/BertQACore/EncryptedFile.swift:97-134 | on a key of hex digits `readEncryptedFile` as written cannot trap. On a 32-byte such key the corrected function returns exactly what the code returns. On a shorter one the code's call reads past the key, and the corrected function makes no call |
| EncryptedFile.SignedKeyReachesCipher | lite/examples/bert_qa/ios/BertQACore/EncryptedFile.swift:36-52 | `"+0"` repeated 32 times decodes to 32 zero bytes as written, so both functions call `CCCrypt` with that key; the corrected functions return `nil` without a call |
| EncryptedFile.OddKeyTrapsAfterLookup | lite/examples/bert_qa/ios/BertQACore/EncryptedFile.swift:25-39 | the key `"abc"` traps in both functions as written exactly when the resource has loaded; the corrected functions return `nil` without a call |
| EncryptedFile.FailedDecryptionTraps | lite/examples/bert_qa/ios/BertQACore/EncryptedFile.swift:67-74 | a CommonCrypto error status for a valid 32-byte key traps in `decryptFile` as written; the corrected function makes the call and returns `nil` |
| EncryptedFile.MissingResourceStopsEarly | lite/examples/bert_qa/ios/BertQACore/EncryptedFile.swift:25-34 | when the resource cannot be loaded both functions return `nil` without calling the cipher, whatever the key; as written they cannot trap then, even on a key that would |
| EncryptedFile.RequestsDifferOnlyInCapacity | lite/examples/bert_qa/ios/BertQACore/EncryptedFile.swift:41-125 | the corrected `decryptFile` and `readEncryptedFile` call `CCCrypt` on exactly the same inputs, and then `readEncryptedFile` makes the same call with a buffer 16 bytes smaller |
| EncryptedFile.RequestsDifferOnlyInCapacityAsWritten | lite/examples/bert_qa/ios/BertQACore/EncryptedFile.swift:46-124 | the same for the two functions as written: wherever `decryptFile` does not trap and calls `CCCrypt`, `readEncryptedFile` cannot trap and makes the same call with a buffer 16 bytes smaller |
| EncryptedFile.ShortKeyScenario | lite/examples/bert_qa/ios/BertQACore/EncryptedFile.swift:97-119 | key `"00 11 22"`: `decryptFile` stops at the size gate without a cipher call, both as written and corrected. `readEncryptedFile` as written calls the cipher with those 3 bytes and key length 32, reading past the key; the corrected function makes no call |
| EncryptedFile.EmptyKeyOverReads | lite/examples/bert_qa/ios/BertQACore/EncryptedFile.swift:97-119 | the empty key decodes to no bytes, yet `readEncryptedFile` as written calls the cipher with key length 32; the corrected function makes no call |
| EncryptedFile.DecryptFileRoundTrip | lite/examples/bert_qa/ios/BertQACore/EncryptedFile.swift:46-69 | with a cipher that undoes `encrypt`, a resource holding `encrypt(key, plain)` and the hex of the key, `decryptFile` returns the ASCII text of `plain` |
| EncryptedFile.DecryptFileAsWrittenDefinedOnRoundTrip | lite/examples/bert_qa/ios/BertQACore/EncryptedFile.swift:36-67 | on the hex of a 32-byte key and a resource the cipher decrypts, `decryptFile` as written traps neither in the key loop nor in the status conversion |
| EncryptedFile.DecryptFileAsWrittenRoundTrip | lite/examples/bert_qa/ios/BertQACore/EncryptedFile.swift:36-69 | the same round trip through `decryptFile` as written cannot trap and returns the ASCII text of `plain` |
| EncryptedFile.ReadEncryptedFileRoundTrip | lite/examples/bert_qa/ios/BertQACore/EncryptedFile.swift:103-139 | the same round trip through `readEncryptedFile` returns `plain` itself |
| EncryptedFile.ReadEncryptedFileAsWrittenRoundTrip | lite/examples/bert_qa/ios/BertQACore/EncryptedFile.swift:97-139 | the same round trip through `readEncryptedFile` as written cannot trap and returns `plain` itself |

## Left out

- AES itself and the rest of `CCCrypt`: this is foreign CommonCrypto code. It is the `crypt` field of `Host`. The nil IV is recorded in the request as `iv == None`; what the library does with it is not modelled.
- `URL(string:)`, `lastPathComponent`, `Bundle.main.path(forResource:ofType:)` and `Data(contentsOf:)`: these are Foundation and file-system I/O. They are the `Host` fields `lastPathComponent`, `bundlePath` and `contentsOf`.
- `String(data:encoding: .ascii)`: Foundation decoding whose acceptance rules are not part of this model. It is the `asciiString` field.
- `print` diagnostics: these are side effects with no influence on the result.
- The `withUnsafeBytes` pointer plumbing, including the force-unwrapped `baseAddress!` in `decryptFile`: for an empty resource this may trap, depending on Foundation. The model treats the empty resource like any other.
- Swift `String` counts grapheme clusters (Swift `Character`), not Unicode scalars (Dafny `char`). The model works on `seq<char>`, so a combining mark after a hex digit is not modelled.
- Pkcs7.RemovePkcs7Padding: the model assumes `Data` indices start at 0. A `Data` slice such as `blob.dropFirst(16)` keeps its parent's indices, so the code would read the wrong byte at line 144 and trap at line 146; a `seq` cannot express that.
- EncryptedFile.DecryptFileAsWritten: the contract says nothing about the returned text beyond what `String(data:encoding: .ascii)` makes of the reported bytes, because that conversion is foreign.
- EncryptedFile.DecryptFile: the contract says nothing about the returned text beyond what `String(data:encoding: .ascii)` makes of the reported bytes, because that conversion is foreign.

## Findings

| source | as written | input that shows it | evidently intended | confidence | as-written member | corrected member |
|---|---|---|---|---|---|---|
| lite/examples/bert_qa/ios/BertQACore/EncryptedFile.swift:67 | `UInt32(cryptStatus)` converts the `Int32` status, and every CommonCrypto error status is negative, so the conversion traps | a failed decryption, e.g. status `kCCDecodeError` (-4304) | print the status and return `nil` (lines 70-74) | high, not executed | `EncryptedFile.DecryptFileAsWritten`, `EncryptedFile.FailedDecryptionTraps` | `EncryptedFile.DecryptFile` |
| lite/examples/bert_qa/ios/BertQACore/EncryptedFile.swift:10-17 | with an odd number of characters after cleaning, `index(_:offsetBy: 2)` steps past `endIndex` and traps | `"abc"` | return `nil` like any other invalid hex string | high, not executed | `HexData.DecodeHex`, `EncryptedFile.OddKeyTrapsAfterLookup` | `HexData.DecodeHexStrict` |
| lite/examples/bert_qa/ios/BertQACore/EncryptedFile.swift:12 | `UInt8(_, radix: 16)` accepts a sign, so a pair like `+a` or `-0` counts as a byte | `"+a-0"` decodes to `[0x0a, 0x00]`; `"+0"` 32 times is a 32-byte key that `decryptFile` passes to `CCCrypt` | only two hex digits form a byte | medium, not executed | `HexData.DecodeHexAcceptsSignedPairs`, `EncryptedFile.DecryptFileAsWritten`, `EncryptedFile.SignedKeyReachesCipher` | `EncryptedFile.DecryptFile` |
| lite/examples/bert_qa/ios/BertQACore/EncryptedFile.swift:118-119 | `keyBytes.baseAddress` is passed with key length `kCCKeySizeAES256` (32) whatever the decoded key's length, since there is no size gate like line 41 | `"00 11 22"` (3 bytes) or `""` (no bytes): `CCCrypt` reads 32 bytes from a shorter buffer | refuse a key that is not 32 bytes, as `decryptFile` does | high, not executed | `EncryptedFile.ReadEncryptedFileAsWritten`, `EncryptedFile.ShortKeyScenario`, `EncryptedFile.EmptyKeyOverReads` | `EncryptedFile.ReadEncryptedFile` |
| lite/examples/bert_qa/ios/BertQACore/EncryptedFile.swift:142-148 | the padding bytes are never compared with the length byte, and a length byte larger than the data traps | 14 bytes `0x41` then `0x07 0x02`: two bytes are stripped | remove padding only when it is valid PKCS#7 padding (section 6.3 of RFC 5652), otherwise fail | medium, not executed | `Pkcs7.RemovePkcs7Padding`, `Pkcs7.UnpadAcceptsMalformedPadding` | `Pkcs7.RemovePkcs7PaddingChecked` |

The corrected `DecryptFile` and `ReadEncryptedFile` use `HexData.DecodeHexStrict`. `DecryptFile` also uses `CommonCrypto.IsSuccess`, and `ReadEncryptedFile` has the 32-byte key gate. The as-written functions use `HexData.DecodeHex` and `CommonCrypto.SuccessAsWritten`.
Nothing in the file calls `removePKCS7Padding`.

=== FILE: commoncrypto.dfy ===
/**
 * The part of CommonCrypto the decrypt functions use: the constants they
 * pass, and the shape of one `CCCrypt` call. The cipher itself (AES in CBC
 * mode, FIPS 197 and section 6.2 of NIST SP 800-38A) is foreign code; the
 * pipelines receive it as a function value of type `Crypt`.
 */
module CommonCrypto {
  import opened Wrappers
  import opened Ints

  const kCCKeySizeAES256: nat := 32
  const kCCBlockSizeAES128: nat := 16

  /** `CCCryptorStatus` values from CommonCryptor.h; every error is negative. */
  const kCCSuccess: int32 := 0
  const kCCParamError: int32 := -4300
  const kCCBufferTooSmall: int32 := -4301
  const kCCMemoryFailure: int32 := -4302
  const kCCAlignmentError: int32 := -4303
  const kCCDecodeError: int32 := -4304
  const kCCUnimplemented: int32 := -4305
  const kCCOverflow: int32 := -4306
  const kCCRNGFailure: int32 := -4307
  const kCCUnspecifiedError: int32 := -4308
  const kCCCallSequenceError: int32 := -4309
  const kCCKeySizeError: int32 := -4310
  const kCCInvalidKey: int32 := -4311

  const EngineErrors: set<int32> := {
    kCCParamError, kCCBufferTooSmall, kCCMemoryFailure, kCCAlignmentError,
    kCCDecodeError, kCCUnimplemented, kCCOverflow, kCCRNGFailure,
    kCCUnspecifiedError, kCCCallSequenceError, kCCKeySizeError, kCCInvalidKey
  }

  datatype Operation = Encrypt | Decrypt
  datatype Algorithm = AES
  /** `CCOptions`: the two option bits CommonCrypto defines. */
  datatype Options = Options(pkcs7Padding: bool, ecbMode: bool)

  /** `CCOptions(kCCOptionPKCS7Padding)`: padding on, CBC mode. */
  const PKCS7PaddingOption := Options(true, false)

  /**
   * The arguments of one `CCCrypt` call. `key` holds the bytes the key
   * pointer refers to, `keyLength` the length passed beside it; `iv` is
   * `None` for a nil IV; `dataOutAvailable` is the output buffer's capacity.
   */
  datatype CryptRequest = CryptRequest(
    op: Operation,
    algorithm: Algorithm,
    options: Options,
    key: seq<uint8>,
    keyLength: nat,
    iv: Option<seq<uint8>>,
    dataIn: seq<uint8>,
    dataInLength: nat,
    dataOutAvailable: nat)

  /**
   * The call reads `keyLength` bytes from the key pointer; the request stays
   * inside the key buffer the caller owns only when that many bytes exist.
   */
  predicate ReadsWithinKey(req: CryptRequest) {
    req.keyLength <= |req.key|
  }

  /**
   * What one call leaves behind: its status, the contents of the output
   * buffer, and `dataOutMoved`, the count the call reports.
   */
  datatype CryptReply = CryptReply(status: int32, dataOut: seq<uint8>, dataOutMoved: nat)

  type Crypt = CryptRequest -> CryptReply

  /** The call writes into the caller's buffer in place, so its length stays the capacity. */
  ghost predicate WritesInPlace(crypt: Crypt) {
    forall req :: |crypt(req).dataOut| == req.dataOutAvailable
  }

  /** On success the reported count never exceeds the capacity. */
  ghost predicate ReportsWithinCapacity(crypt: Crypt) {
    forall req :: crypt(req).status == kCCSuccess ==> crypt(req).dataOutMoved <= req.dataOutAvailable
  }

  /**
   * `UInt32(cryptStatus) == UInt32(kCCSuccess)` as `decryptFile` writes it:
   * converting a negative `Int32` to `UInt32` traps, so the status must be
   * non-negative. The conversions below are range-checked the same way.
   */
  function SuccessAsWritten(status: int32): (ok: bool)
    requires status >= 0
    ensures ok <==> status == kCCSuccess
  {
    status as uint32 == kCCSuccess as uint32
  }

  /** Every error status CommonCrypto defines is outside the domain of the check as written. */
  lemma SuccessAsWrittenTrapsOnEveryError(status: int32)
    requires status in EngineErrors
    ensures !(status >= 0)
  {
  }

  /** The success test `decryptFile` evidently intends: defined for every status. */
  function IsSuccess(status: int32): (ok: bool)
    ensures ok <==> status == kCCSuccess
    ensures status in EngineErrors ==> !ok
    ensures status >= 0 ==> ok == SuccessAsWritten(status)
  {
    status == kCCSuccess
  }
}

=== FILE: encrypted_file.dfy ===
/**
 * `decryptFile(fileName:keyHex:)` and `readEncryptedFile(fileName:decryptionKey:)`:
 * each is a linear chain of guards (resource lookup, key decoding, for
 * `decryptFile` a key-size gate) in front of one `CCCrypt` call, whose output
 * buffer is then cut to the count the call reports.
 *
 * The surroundings the Swift code reaches through Foundation and
 * CommonCrypto are the fields of a `Host`. A run records the one `CCCrypt`
 * request the function made, or `None` when a guard stopped it first, next
 * to what the function returns.
 */
module EncryptedFile {
  import opened Wrappers
  import opened Ints
  import opened HexData
  import opened CommonCrypto

  /**
   * - `lastPathComponent`: `URL(string:)` followed by `.lastPathComponent`
   *   (`None` when the string is not a URL);
   * - `bundlePath`: `Bundle.main.path(forResource:ofType: nil)`;
   * - `contentsOf`: `try? Data(contentsOf:)` on that path;
   * - `crypt`: `CCCrypt`;
   * - `asciiString`: `String(data:encoding: .ascii)`.
   */
  datatype Host = Host(
    lastPathComponent: string -> Option<string>,
    bundlePath: string -> Option<string>,
    contentsOf: string -> Option<seq<uint8>>,
    crypt: Crypt,
    asciiString: seq<uint8> -> Option<string>)

  /** What a call did: the `CCCrypt` request it made, if any, and what it returned. */
  datatype Run<T> = Run(request: Option<CryptRequest>, result: Option<T>)

  /** The encrypted bytes of the bundled resource `fileName`, as both functions look them up. */
  function LoadResource(host: Host, fileName: string): Option<seq<uint8>> {
    match host.lastPathComponent(fileName)
    case None => None
    case Some(justFileName) =>
      match host.bundlePath(justFileName)
      case None => None
      case Some(filePath) => host.contentsOf(filePath)
  }

  /** A decryption request with `PKCS7Padding`, CBC mode and a nil IV, as both functions build it. */
  function DecryptRequest(key: seq<uint8>, keyLength: nat, encrypted: seq<uint8>, capacity: nat): CryptRequest {
    CryptRequest(Decrypt, AES, PKCS7PaddingOption, key, keyLength, None, encrypted, |encrypted|, capacity)
  }

  /**
   * `decryptFile`: no `CCCrypt` call unless the resource loads, the key
   * decodes and is 32 bytes long; the output buffer has one block more than
   * the ciphertext; the text is made from exactly the first
   * `numBytesDecrypted` bytes, and only when the status is success.
   */
  function DecryptFile(host: Host, fileName: string, keyHex: string): (run: Run<string>)
    requires WritesInPlace(host.crypt) && ReportsWithinCapacity(host.crypt)
    ensures run.request.Some? <==>
      && LoadResource(host, fileName).Some?
      && DecodeHexStrict(keyHex).Some?
      && |DecodeHexStrict(keyHex).value| == kCCKeySizeAES256
    ensures run.request.Some? ==>
      var req := run.request.value;
      && req.dataIn == LoadResource(host, fileName).value
      && req.key == DecodeHexStrict(keyHex).value
      && req.keyLength == |req.key| == kCCKeySizeAES256
      && req.iv == None
      && req.op == Decrypt && req.options == PKCS7PaddingOption
      && req.dataInLength == |req.dataIn|
      && req.dataOutAvailable == |req.dataIn| + kCCBlockSizeAES128
    ensures run.result.Some? ==> run.request.Some? && host.crypt(run.request.value).status == kCCSuccess
    ensures run.request.Some? && host.crypt(run.request.value).status == kCCSuccess ==>
      var reply := host.crypt(run.request.value);
      && reply.dataOutMoved <= |reply.dataOut|
      && run.result == host.asciiString(reply.dataOut[..reply.dataOutMoved])
  {
    match LoadResource(host, fileName)
    case None => Run(None, None)
    case Some(encryptedData) =>
      match DecodeHexStrict(keyHex)
      case None => Run(None, None)
      case Some(keyData) =>
        if |keyData| != kCCKeySizeAES256 then Run(None, None)
        else
          var req := DecryptRequest(keyData, |keyData|, encryptedData, |encryptedData| + kCCBlockSizeAES128);
          var reply := host.crypt(req);
          if IsSuccess(reply.status) then
            Run(Some(req), host.asciiString(reply.dataOut[..reply.dataOutMoved]))
          else
            Run(Some(req), None)
  }

  /**
   * The corrected `readEncryptedFile`: the key length passed is always 32, so
   * the key must be 32 bytes long (the gate `decryptFile` has at line 41) for
   * the call to stay inside the key; the output buffer is exactly as long as
   * the ciphertext, and on success the result is the buffer's prefix of
   * `numBytesDecrypted` bytes (`prefix` stops at the end of the buffer
   * instead of trapping).
   */
  function ReadEncryptedFile(host: Host, fileName: string, decryptionKey: string): (run: Run<seq<uint8>>)
    requires WritesInPlace(host.crypt)
    ensures run.request.Some? <==>
      && LoadResource(host, fileName).Some?
      && DecodeHexStrict(decryptionKey).Some?
      && |DecodeHexStrict(decryptionKey).value| == kCCKeySizeAES256
    ensures run.request.Some? ==>
      var req := run.request.value;
      && req.dataIn == LoadResource(host, fileName).value
      && req.key == DecodeHexStrict(decryptionKey).value
      && req.keyLength == kCCKeySizeAES256
      && ReadsWithinKey(req)
      && req.iv == None
      && req.op == Decrypt && req.options == PKCS7PaddingOption
      && req.dataInLength == |req.dataIn|
      && req.dataOutAvailable == |req.dataIn|
    ensures run.result.Some? <==> run.request.Some? && host.crypt(run.request.value).status == kCCSuccess
    ensures run.result.Some? ==>
      var reply := host.crypt(run.request.value);
      && |run.result.value| <= |run.request.value.dataIn|
      && run.result.value == reply.dataOut[..Min(reply.dataOutMoved, |reply.dataOut|)]
  {
    match LoadResource(host, fileName)
    case None => Run(None, None)
    case Some(encryptedData) =>
      match DecodeHexStrict(decryptionKey)
      case None => Run(None, None)
      case Some(key) =>
        if |key| != kCCKeySizeAES256 then Run(None, None)
        else
          var req := DecryptRequest(key, kCCKeySizeAES256, encryptedData, |encryptedData|);
          var reply := host.crypt(req);
          if reply.status == kCCSuccess then
            Run(Some(req), Some(reply.dataOut[..Min(reply.dataOutMoved, |reply.dataOut|)]))
          else
            Run(Some(req), None)
  }

  /**
   * `decryptFile` as written does not trap: once the resource has loaded,
   * the key's hex loop must not run off the string (line 11), and the
   * `UInt32(cryptStatus)` conversion must meet a non-negative status
   * (line 67). A key that would trap is harmless when the lookup fails
   * first.
   */
  predicate DecryptFileDefined(host: Host, fileName: string, keyHex: string) {
    LoadResource(host, fileName).Some? ==>
      && !Traps(RemoveSpaces(keyHex), ParsePair)
      && (DecodeHex(keyHex).Some? && |DecodeHex(keyHex).value| == kCCKeySizeAES256 ==>
            var encrypted := LoadResource(host, fileName).value;
            var keyData := DecodeHex(keyHex).value;
            var req := DecryptRequest(keyData, |keyData|, encrypted, |encrypted| + kCCBlockSizeAES128);
            host.crypt(req).status >= 0)
  }

  /** `readEncryptedFile` as written traps only in the key's hex loop, and only after the lookup. */
  predicate ReadEncryptedFileDefined(host: Host, fileName: string, decryptionKey: string) {
    LoadResource(host, fileName).Some? ==> !Traps(RemoveSpaces(decryptionKey), ParsePair)
  }

  /**
   * `decryptFile` exactly as written: the key goes through the initializer
   * `DecodeHex`, signs and all, and success is `UInt32(cryptStatus) ==
   * UInt32(kCCSuccess)`. Its traps are the precondition `DecryptFileDefined`.
   */
  function DecryptFileAsWritten(host: Host, fileName: string, keyHex: string): (run: Run<string>)
    requires WritesInPlace(host.crypt) && ReportsWithinCapacity(host.crypt)
    requires DecryptFileDefined(host, fileName, keyHex)
    ensures run.request.Some? <==>
      && LoadResource(host, fileName).Some?
      && DecodeHex(keyHex).Some?
      && |DecodeHex(keyHex).value| == kCCKeySizeAES256
    ensures run.request.Some? ==>
      var req := run.request.value;
      && req.dataIn == LoadResource(host, fileName).value
      && req.key == DecodeHex(keyHex).value
      && req.keyLength == |req.key| == kCCKeySizeAES256
      && req.iv == None
      && req.op == Decrypt && req.options == PKCS7PaddingOption
      && req.dataInLength == |req.dataIn|
      && req.dataOutAvailable == |req.dataIn| + kCCBlockSizeAES128
    ensures run.result.Some? ==> run.request.Some? && host.crypt(run.request.value).status == kCCSuccess
    ensures run.request.Some? && host.crypt(run.request.value).status == kCCSuccess ==>
      var reply := host.crypt(run.request.value);
      && reply.dataOutMoved <= |reply.dataOut|
      && run.result == host.asciiString(reply.dataOut[..reply.dataOutMoved])
  {
    match LoadResource(host, fileName)
    case None => Run(None, None)
    case Some(encryptedData) =>
      match DecodeHex(keyHex)
      case None => Run(None, None)
      case Some(keyData) =>
        if |keyData| != kCCKeySizeAES256 then Run(None, None)
        else
          var req := DecryptRequest(keyData, |keyData|, encryptedData, |encryptedData| + kCCBlockSizeAES128);
          var reply := host.crypt(req);
          if SuccessAsWritten(reply.status) then
            Run(Some(req), host.asciiString(reply.dataOut[..reply.dataOutMoved]))
          else
            Run(Some(req), None)
  }

  /**
   * `readEncryptedFile` exactly as written: the key goes through the
   * initializer `DecodeHex`, whatever its length the key length passed is
   * 32, and the status test `status == kCCSuccess` is already total. A key
   * shorter than 32 bytes makes `CCCrypt` read past the key buffer.
   */
  function ReadEncryptedFileAsWritten(host: Host, fileName: string, decryptionKey: string): (run: Run<seq<uint8>>)
    requires WritesInPlace(host.crypt)
    requires ReadEncryptedFileDefined(host, fileName, decryptionKey)
    ensures run.request.Some? <==>
      LoadResource(host, fileName).Some? && DecodeHex(decryptionKey).Some?
    ensures run.request.Some? ==>
      var req := run.request.value;
      && req.dataIn == LoadResource(host, fileName).value
      && req.key == DecodeHex(decryptionKey).value
      && req.keyLength == kCCKeySizeAES256
      && (ReadsWithinKey(req) <==> |req.key| >= kCCKeySizeAES256)
      && req.iv == None
      && req.op == Decrypt && req.options == PKCS7PaddingOption
      && req.dataInLength == |req.dataIn|
      && req.dataOutAvailable == |req.dataIn|
    ensures run.result.Some? <==> run.request.Some? && host.crypt(run.request.value).status == kCCSuccess
    ensures run.result.Some? ==>
      var reply := host.crypt(run.request.value);
      && |run.result.value| <= |run.request.value.dataIn|
      && run.result.value == reply.dataOut[..Min(reply.dataOutMoved, |reply.dataOut|)]
  {
    match LoadResource(host, fileName)
    case None => Run(None, None)
    case Some(encryptedData) =>
      match DecodeHex(decryptionKey)
      case None => Run(None, None)
      case Some(key) =>
        var req := DecryptRequest(key, kCCKeySizeAES256, encryptedData, |encryptedData|);
        var reply := host.crypt(req);
        if reply.status == kCCSuccess then
          Run(Some(req), Some(reply.dataOut[..Min(reply.dataOutMoved, |reply.dataOut|)]))
        else
          Run(Some(req), None)
  }

  /**
   * On a key of hex digits the corrected `decryptFile` is the one as
   * written: the two differ only on signed pairs, odd lengths and error
   * statuses.
   */
  lemma DecryptFileAgreesOnDigitKeys(host: Host, fileName: string, keyHex: string)
    requires WritesInPlace(host.crypt) && ReportsWithinCapacity(host.crypt)
    requires DecodeHexStrict(keyHex).Some?
    requires DecryptFileDefined(host, fileName, keyHex)
    ensures DecryptFileAsWritten(host, fileName, keyHex) == DecryptFile(host, fileName, keyHex)
  {
    StrictAgreesOnDigits(keyHex);
  }

  /**
   * On a key of hex digits `readEncryptedFile` as written does not trap. On
   * a 32-byte such key the corrected function is the one as written; on a
   * shorter one the function as written reads past the key, while the
   * corrected one makes no call.
   */
  lemma ReadEncryptedFileAgreesOnDigitKeys(host: Host, fileName: string, decryptionKey: string)
    requires WritesInPlace(host.crypt)
    requires DecodeHexStrict(decryptionKey).Some?
    ensures ReadEncryptedFileDefined(host, fileName, decryptionKey)
    ensures |DecodeHexStrict(decryptionKey).value| == kCCKeySizeAES256 ==>
      ReadEncryptedFileAsWritten(host, fileName, decryptionKey) == ReadEncryptedFile(host, fileName, decryptionKey)
    ensures |DecodeHexStrict(decryptionKey).value| < kCCKeySizeAES256 ==>
      && ReadEncryptedFile(host, fileName, decryptionKey) == Run(None, None)
      && (ReadEncryptedFileAsWritten(host, fileName, decryptionKey).request.Some? ==>
            !ReadsWithinKey(ReadEncryptedFileAsWritten(host, fileName, decryptionKey).request.value))
  {
    StrictAgreesOnDigits(decryptionKey);
  }

  /**
   * `"+0"` 32 times: the initializer as written reads 32 zero bytes, so
   * `decryptFile` passes the size gate and calls the cipher with them, and
   * so does `readEncryptedFile`; the corrected functions refuse the key.
   */
  lemma SignedKeyReachesCipher(host: Host, fileName: string, keyHex: string)
    requires WritesInPlace(host.crypt) && ReportsWithinCapacity(host.crypt)
    requires LoadResource(host, fileName).Some?
    requires |keyHex| == 64 && forall k :: 0 <= k < 64 ==> keyHex[k] == if k % 2 == 0 then '+' else '0'
    ensures !Traps(RemoveSpaces(keyHex), ParsePair)
    ensures DecodeHex(keyHex) == Some(seq(32, _ => 0))
    ensures DecryptFile(host, fileName, keyHex) == Run(None, None)
    ensures ReadEncryptedFile(host, fileName, keyHex) == Run(None, None)
    ensures DecryptFileDefined(host, fileName, keyHex) ==>
      DecryptFileAsWritten(host, fileName, keyHex).request.Some? &&
      DecryptFileAsWritten(host, fileName, keyHex).request.value.key == seq(32, _ => 0)
    ensures ReadEncryptedFileDefined(host, fileName, keyHex)
    ensures ReadEncryptedFileAsWritten(host, fileName, keyHex).request.Some?
    ensures ReadEncryptedFileAsWritten(host, fileName, keyHex).request.value.key == seq(32, _ => 0)
  {
    assert !IsHexDigit(keyHex[0]);
    StrictRejectsNonDigit(keyHex, 0);
    assert forall i: nat :: i < 32 ==> PairAt(keyHex, i, ParsePair) == Some(0) by {
      forall i: nat | i < 32
        ensures PairAt(keyHex, i, ParsePair) == Some(0)
      {
        assert keyHex[2 * i] == '+' && keyHex[2 * i + 1] == '0';
      }
    }
    assert ' ' !in keyHex by {
      forall k | 0 <= k < |keyHex| ensures keyHex[k] != ' ' {}
    }
    RemoveSpacesKeepsSpaceFree(keyHex);
    var v := DecodeHex(keyHex).value;
    assert v == seq(32, _ => 0);
  }

  /**
   * An odd-length key such as `"abc"` traps in both functions as written,
   * but only once the resource has loaded; the corrected functions return
   * `nil` without calling the cipher.
   */
  lemma OddKeyTrapsAfterLookup(host: Host, fileName: string, keyHex: string)
    requires WritesInPlace(host.crypt) && ReportsWithinCapacity(host.crypt)
    requires keyHex == "abc"
    ensures DecryptFileDefined(host, fileName, keyHex) <==> LoadResource(host, fileName).None?
    ensures ReadEncryptedFileDefined(host, fileName, keyHex) <==> LoadResource(host, fileName).None?
    ensures DecryptFile(host, fileName, keyHex) == Run(None, None)
    ensures ReadEncryptedFile(host, fileName, keyHex) == Run(None, None)
  {
    DecodeHexTrapsOnOddLength(keyHex);
  }

  /**
   * A failed decryption under a well-formed 32-byte key traps in
   * `decryptFile` as written, whatever CommonCrypto error it reports; the
   * corrected function returns `nil` after the call.
   */
  lemma FailedDecryptionTraps(host: Host, fileName: string, keyHex: string)
    requires WritesInPlace(host.crypt) && ReportsWithinCapacity(host.crypt)
    requires LoadResource(host, fileName).Some?
    requires DecodeHexStrict(keyHex).Some? && |DecodeHexStrict(keyHex).value| == kCCKeySizeAES256
    requires var encrypted := LoadResource(host, fileName).value;
      host.crypt(DecryptRequest(DecodeHexStrict(keyHex).value, kCCKeySizeAES256, encrypted, |encrypted| + kCCBlockSizeAES128)).status in EngineErrors
    ensures !DecryptFileDefined(host, fileName, keyHex)
    ensures DecryptFile(host, fileName, keyHex).request.Some?
    ensures DecryptFile(host, fileName, keyHex).result == None
  {
    StrictAgreesOnDigits(keyHex);
    var encrypted := LoadResource(host, fileName).value;
    SuccessAsWrittenTrapsOnEveryError(host.crypt(DecryptRequest(DecodeHex(keyHex).value, kCCKeySizeAES256, encrypted, |encrypted| + kCCBlockSizeAES128)).status);
  }

  /**
   * A missing resource stops both functions before the key is looked at or
   * the cipher is called: as written they cannot trap then, whatever the key.
   */
  lemma MissingResourceStopsEarly(host: Host, fileName: string, keyHex: string)
    requires WritesInPlace(host.crypt) && ReportsWithinCapacity(host.crypt)
    requires LoadResource(host, fileName).None?
    ensures DecryptFile(host, fileName, keyHex) == Run(None, None)
    ensures ReadEncryptedFile(host, fileName, keyHex) == Run(None, None)
    ensures DecryptFileDefined(host, fileName, keyHex) && DecryptFileAsWritten(host, fileName, keyHex) == Run(None, None)
    ensures ReadEncryptedFileDefined(host, fileName, keyHex) && ReadEncryptedFileAsWritten(host, fileName, keyHex) == Run(None, None)
  {
  }

  /**
   * The corrected functions call the cipher on the same inputs, and then
   * `readEncryptedFile` makes the same call with a buffer one block smaller.
   */
  lemma RequestsDifferOnlyInCapacity(host: Host, fileName: string, keyHex: string)
    requires WritesInPlace(host.crypt) && ReportsWithinCapacity(host.crypt)
    ensures DecryptFile(host, fileName, keyHex).request.Some? <==> ReadEncryptedFile(host, fileName, keyHex).request.Some?
    ensures DecryptFile(host, fileName, keyHex).request.Some? ==>
      var req := DecryptFile(host, fileName, keyHex).request.value;
      ReadEncryptedFile(host, fileName, keyHex).request ==
        Some(req.(dataOutAvailable := req.dataOutAvailable - kCCBlockSizeAES128))
  {
  }

  /** The same for the two functions as written, wherever `decryptFile` does not trap. */
  lemma RequestsDifferOnlyInCapacityAsWritten(host: Host, fileName: string, keyHex: string)
    requires WritesInPlace(host.crypt) && ReportsWithinCapacity(host.crypt)
    requires DecryptFileDefined(host, fileName, keyHex)
    requires DecryptFileAsWritten(host, fileName, keyHex).request.Some?
    ensures ReadEncryptedFileDefined(host, fileName, keyHex)
    ensures var req := DecryptFileAsWritten(host, fileName, keyHex).request.value;
      ReadEncryptedFileAsWritten(host, fileName, keyHex).request ==
        Some(req.(dataOutAvailable := req.dataOutAvailable - kCCBlockSizeAES128))
  {
  }

  /**
   * The key `"00 11 22"` is three bytes: `decryptFile` refuses it without
   * calling the cipher, while `readEncryptedFile` as written calls it with
   * the three bytes and a key length of 32, so the call reads 29 bytes past
   * the key. The corrected `readEncryptedFile` refuses the key.
   */
  lemma ShortKeyScenario(host: Host, fileName: string, keyHex: string)
    requires WritesInPlace(host.crypt) && ReportsWithinCapacity(host.crypt)
    requires LoadResource(host, fileName).Some?
    requires keyHex == "00 11 22"
    ensures DecryptFile(host, fileName, keyHex) == Run(None, None)
    ensures DecryptFileDefined(host, fileName, keyHex) && DecryptFileAsWritten(host, fileName, keyHex) == Run(None, None)
    ensures ReadEncryptedFileDefined(host, fileName, keyHex)
    ensures ReadEncryptedFileAsWritten(host, fileName, keyHex).request.Some?
    ensures var req := ReadEncryptedFileAsWritten(host, fileName, keyHex).request.value;
      req.key == [0x00, 0x11, 0x22] && req.keyLength == 32 && !ReadsWithinKey(req)
    ensures ReadEncryptedFile(host, fileName, keyHex) == Run(None, None)
  {
    var key: seq<uint8> := [0x00, 0x11, 0x22];
    assert EncodeHexSpaced(key) == keyHex by {
      assert EncodeHex(key[..1]) == "00";
      assert EncodeHex(key[1..][..1]) == "11";
      assert EncodeHex(key[1..][1..]) == "22";
    }
    HexRoundTripSpaced(key);
    StrictAgreesOnDigits(keyHex);
    ReadEncryptedFileAgreesOnDigitKeys(host, fileName, keyHex);
  }

  /**
   * The empty key decodes to no bytes at all: `readEncryptedFile` as written
   * still calls the cipher with a key length of 32, reading 32 bytes that are
   * not part of the key; the corrected function refuses it.
   */
  lemma EmptyKeyOverReads(host: Host, fileName: string, keyHex: string)
    requires WritesInPlace(host.crypt)
    requires LoadResource(host, fileName).Some?
    requires keyHex == ""
    ensures ReadEncryptedFileDefined(host, fileName, keyHex)
    ensures ReadEncryptedFileAsWritten(host, fileName, keyHex).request.Some?
    ensures var req := ReadEncryptedFileAsWritten(host, fileName, keyHex).request.value;
      req.key == [] && req.keyLength == 32 && !ReadsWithinKey(req)
    ensures ReadEncryptedFile(host, fileName, keyHex) == Run(None, None)
  {
    RemoveSpacesKeepsSpaceFree(keyHex);
  }

  /**
   * `encrypt` and `crypt` are inverse: decrypting, under a 32-byte key and
   * into a buffer at least as long as the ciphertext, what `encrypt` made of
   * `plain` succeeds and reports exactly `plain`.
   */
  ghost predicate Inverts(crypt: Crypt, encrypt: (seq<uint8>, seq<uint8>) -> seq<uint8>) {
    forall key: seq<uint8>, plain: seq<uint8>, capacity: nat
      {:trigger crypt(DecryptRequest(key, kCCKeySizeAES256, encrypt(key, plain), capacity))}
      :: |key| == kCCKeySizeAES256 && |encrypt(key, plain)| <= capacity ==>
      var reply := crypt(DecryptRequest(key, kCCKeySizeAES256, encrypt(key, plain), capacity));
      && reply.status == kCCSuccess
      && reply.dataOutMoved == |plain| <= |reply.dataOut|
      && reply.dataOut[..|plain|] == plain
  }

  /**
   * End to end: with a cipher that inverts `encrypt`, a resource holding
   * `encrypt(key, plain)` and the key written in hex, `decryptFile` returns
   * the text of `plain`.
   */
  lemma DecryptFileRoundTrip(host: Host, fileName: string, key: seq<uint8>, plain: seq<uint8>,
                             encrypt: (seq<uint8>, seq<uint8>) -> seq<uint8>)
    requires WritesInPlace(host.crypt) && ReportsWithinCapacity(host.crypt)
    requires Inverts(host.crypt, encrypt)
    requires |key| == kCCKeySizeAES256
    requires LoadResource(host, fileName) == Some(encrypt(key, plain))
    ensures DecryptFile(host, fileName, EncodeHex(key)).result == host.asciiString(plain)
  {
    HexRoundTrip(key);
    var ct := encrypt(key, plain);
    var req := DecryptRequest(key, kCCKeySizeAES256, ct, |ct| + kCCBlockSizeAES128);
    var run := DecryptFile(host, fileName, EncodeHex(key));
    assert run.request == Some(req);
    var reply := host.crypt(req);
    assert reply.status == kCCSuccess && reply.dataOutMoved == |plain|;
  }

  /**
   * `decryptFile` as written cannot trap on the hex of a 32-byte key and a
   * resource the cipher decrypts: the key is all digits, and the status is
   * success.
   */
  lemma DecryptFileAsWrittenDefinedOnRoundTrip(host: Host, fileName: string, key: seq<uint8>, plain: seq<uint8>,
                                               encrypt: (seq<uint8>, seq<uint8>) -> seq<uint8>)
    requires Inverts(host.crypt, encrypt)
    requires |key| == kCCKeySizeAES256
    requires LoadResource(host, fileName) == Some(encrypt(key, plain))
    ensures DecryptFileDefined(host, fileName, EncodeHex(key))
  {
    HexRoundTripAsWritten(key);
    var ct := encrypt(key, plain);
    var req := DecryptRequest(key, kCCKeySizeAES256, ct, |ct| + kCCBlockSizeAES128);
    assert host.crypt(req).status == kCCSuccess;
  }

  /** The same round trip through `decryptFile` as written, which cannot trap on such a key and resource. */
  lemma DecryptFileAsWrittenRoundTrip(host: Host, fileName: string, key: seq<uint8>, plain: seq<uint8>,
                                      encrypt: (seq<uint8>, seq<uint8>) -> seq<uint8>)
    requires WritesInPlace(host.crypt) && ReportsWithinCapacity(host.crypt)
    requires Inverts(host.crypt, encrypt)
    requires |key| == kCCKeySizeAES256
    requires LoadResource(host, fileName) == Some(encrypt(key, plain))
    ensures DecryptFileDefined(host, fileName, EncodeHex(key))
    ensures DecryptFileAsWritten(host, fileName, EncodeHex(key)).result == host.asciiString(plain)
  {
    DecryptFileAsWrittenDefinedOnRoundTrip(host, fileName, key, plain, encrypt);
    HexRoundTrip(key);
    DecryptFileRoundTrip(host, fileName, key, plain, encrypt);
    DecryptFileAgreesOnDigitKeys(host, fileName, EncodeHex(key));
  }

  /** The same round trip through `readEncryptedFile`, which returns `plain` itself. */
  lemma ReadEncryptedFileRoundTrip(host: Host, fileName: string, key: seq<uint8>, plain: seq<uint8>,
                                   encrypt: (seq<uint8>, seq<uint8>) -> seq<uint8>)
    requires WritesInPlace(host.crypt)
    requires Inverts(host.crypt, encrypt)
    requires |key| == kCCKeySizeAES256
    requires LoadResource(host, fileName) == Some(encrypt(key, plain))
    ensures ReadEncryptedFile(host, fileName, EncodeHex(key)).result == Some(plain)
  {
    HexRoundTrip(key);
    var ct := encrypt(key, plain);
    var req := DecryptRequest(key, kCCKeySizeAES256, ct, |ct|);
    var run := ReadEncryptedFile(host, fileName, EncodeHex(key));
    assert run.request == Some(req);
    var reply := host.crypt(req);
    assert reply.status == kCCSuccess && reply.dataOutMoved == |plain|;
  }

  /** The same round trip through `readEncryptedFile` as written, which cannot trap on such a key. */
  lemma ReadEncryptedFileAsWrittenRoundTrip(host: Host, fileName: string, key: seq<uint8>, plain: seq<uint8>,
                                            encrypt: (seq<uint8>, seq<uint8>) -> seq<uint8>)
    requires WritesInPlace(host.crypt)
    requires Inverts(host.crypt, encrypt)
    requires |key| == kCCKeySizeAES256
    requires LoadResource(host, fileName) == Some(encrypt(key, plain))
    ensures ReadEncryptedFileDefined(host, fileName, EncodeHex(key))
    ensures ReadEncryptedFileAsWritten(host, fileName, EncodeHex(key)).result == Some(plain)
  {
    HexRoundTrip(key);
    ReadEncryptedFileAgreesOnDigitKeys(host, fileName, EncodeHex(key));
    ReadEncryptedFileRoundTrip(host, fileName, key, plain, encrypt);
  }
}

=== FILE: hex.dfy ===
/**
 * `Data.init?(fromHexEncodedString:)`: every space is removed, then the rest
 * is read two characters at a time, each pair parsed as a base-16 byte
 * (section 8 of RFC 4648). A pair that does not parse makes the whole
 * initializer return `nil`.
 *
 * As written, the pair parser is Swift's `UInt8(_:radix:)`, which also takes a
 * leading sign (`"+a"` is 10, `"-0"` is 0), and a lone trailing character makes
 * `index(_:offsetBy: 2)` step past the end of the string, which traps. Both are
 * modelled (`ParsePair`, `Traps`); `DecodeHexStrict` is the decoder the
 * initializer evidently intends, and the one the corrected decrypt functions
 * use.
 */
module HexData {
  import opened Wrappers
  import opened Ints

  /** The characters Swift's integer parser accepts as base-16 digits. */
  predicate IsHexDigit(c: char) {
    ('0' <= c <= '9') || ('a' <= c <= 'f') || ('A' <= c <= 'F')
  }

  function DigitValue(c: char): (v: nat)
    requires IsHexDigit(c)
    ensures v < 16
  {
    if '0' <= c <= '9' then c as int - '0' as int
    else if 'a' <= c <= 'f' then c as int - 'a' as int + 10
    else c as int - 'A' as int + 10
  }

  /** The lower-case digit of a nibble, as a hex encoder writes it. */
  function LowerHexDigit(v: nat): (c: char)
    requires v < 16
    ensures IsHexDigit(c) && DigitValue(c) == v
    ensures !('A' <= c <= 'F')
  {
    if v < 10 then ('0' as int + v) as char else ('a' as int + v - 10) as char
  }

  /** The byte whose high and low nibbles are the digits `hi` and `lo`. */
  function ByteOf(hi: char, lo: char): (b: uint8)
    requires IsHexDigit(hi) && IsHexDigit(lo)
  {
    (16 * DigitValue(hi) + DigitValue(lo)) as uint8
  }

  /** A parser for one two-character substring. */
  type PairParser = (char, char) -> Option<uint8>

  /**
   * `UInt8(byteString, radix: 16)` on the two-character string `[hi, lo]`:
   * a leading `+` or `-` is a sign, so only the second character is a digit,
   * and a negative value other than zero does not fit in `UInt8`.
   */
  function ParsePair(hi: char, lo: char): (r: Option<uint8>)
    ensures IsHexDigit(hi) && IsHexDigit(lo) ==> r == Some(ByteOf(hi, lo))
    ensures r.Some? ==> IsHexDigit(lo)
    ensures r.Some? && !IsHexDigit(hi) ==> hi == '+' || (hi == '-' && lo == '0' && r.value == 0)
    ensures hi == '-' && lo == '0' ==> r == Some(0)
    ensures hi == '+' && IsHexDigit(lo) ==> r == Some(DigitValue(lo) as uint8)
  {
    if hi == '+' then
      (if IsHexDigit(lo) then Some(DigitValue(lo) as uint8) else None)
    else if hi == '-' then
      (if IsHexDigit(lo) && DigitValue(lo) == 0 then Some(0) else None)
    else if IsHexDigit(hi) && IsHexDigit(lo) then
      Some(ByteOf(hi, lo))
    else
      None
  }

  /** A pair parser that accepts exactly two hex digits. */
  function StrictPair(hi: char, lo: char): (r: Option<uint8>)
    ensures r.Some? <==> IsHexDigit(hi) && IsHexDigit(lo)
    ensures r.Some? ==> r == ParsePair(hi, lo)
  {
    if IsHexDigit(hi) && IsHexDigit(lo) then Some(ByteOf(hi, lo)) else None
  }

  /**
   * `hexString.replacingOccurrences(of: " ", with: "")`: the same characters
   * in the same order, spaces dropped.
   */
  function RemoveSpaces(s: seq<char>): (r: seq<char>)
    ensures ' ' !in r
    ensures |r| <= |s|
  {
    if |s| == 0 then []
    else (if s[0] == ' ' then [] else [s[0]]) + RemoveSpaces(s[1..])
  }

  /** Exactly the spaces go: every other character is kept as often as it occurs. */
  lemma {:induction false} RemoveSpacesKeepsOthers(s: seq<char>)
    ensures multiset(RemoveSpaces(s)) == multiset(s)[' ' := 0]
    decreases |s|
  {
    if |s| > 0 {
      assert s == [s[0]] + s[1..];
      RemoveSpacesKeepsOthers(s[1..]);
    }
  }

  lemma {:induction false} RemoveSpacesAppend(a: seq<char>, b: seq<char>)
    ensures RemoveSpaces(a + b) == RemoveSpaces(a) + RemoveSpaces(b)
    decreases |a|
  {
    if |a| == 0 {
      assert a + b == b;
    } else {
      assert (a + b)[1..] == a[1..] + b;
      RemoveSpacesAppend(a[1..], b);
    }
  }

  /** A string without spaces is left as it is; so the cleaning is idempotent. */
  lemma {:induction false} RemoveSpacesKeepsSpaceFree(s: seq<char>)
    requires ' ' !in s
    ensures RemoveSpaces(s) == s
    decreases |s|
  {
    if |s| > 0 {
      assert ' ' !in s[1..];
      RemoveSpacesKeepsSpaceFree(s[1..]);
    }
  }

  /** The pair the loop reads at its `i`-th iteration. */
  function PairAt(s: seq<char>, i: nat, parse: PairParser): Option<uint8>
    requires 2 * i + 1 < |s|
  {
    parse(s[2 * i], s[2 * i + 1])
  }

  /**
   * The loop reaches a lone last character with every earlier pair parsed:
   * `cleanedString.index(index, offsetBy: 2)` then goes past `endIndex`.
   */
  predicate Traps(s: seq<char>, parse: PairParser) {
    |s| % 2 == 1 && forall i: nat :: i < |s| / 2 ==> PairAt(s, i, parse).Some?
  }

  lemma PairAtShift(s: seq<char>, i: nat, parse: PairParser)
    requires 2 * i + 3 < |s|
    ensures PairAt(s[2..], i, parse) == PairAt(s, i + 1, parse)
  {
  }

  /** A parsed first pair in front of a trapping string still traps. */
  lemma TrapsExtend(s: seq<char>, parse: PairParser)
    requires |s| >= 2 && parse(s[0], s[1]).Some?
    ensures Traps(s[2..], parse) ==> Traps(s, parse)
  {
    if Traps(s[2..], parse) {
      forall i: nat | i < |s| / 2
        ensures PairAt(s, i, parse).Some?
      {
        if i > 0 {
          PairAtShift(s, i - 1, parse);
        }
      }
    }
  }

  /** Either the loop finds room for the pair at `k`, or it traps there. */
  lemma RoomOrTrap(s: seq<char>, k: nat, parse: PairParser)
    requires k % 2 == 0 && k < |s|
    requires forall i: nat :: i < k / 2 ==> PairAt(s, i, parse).Some?
    ensures k + 2 <= |s| || Traps(s, parse)
  {
  }

  /**
   * The loop of the initializer over an already cleaned string: `None` as
   * soon as one pair fails, otherwise one byte per pair.
   */
  function DecodePairs(s: seq<char>, parse: PairParser): (r: Option<seq<uint8>>)
    requires !Traps(s, parse)
    ensures r.Some? ==> 2 * |r.value| == |s|
    ensures r.Some? ==> forall i: nat :: i < |r.value| ==> PairAt(s, i, parse) == Some(r.value[i])
    ensures r.None? <==> exists i: nat :: i < |s| / 2 && PairAt(s, i, parse).None?
    decreases |s|
  {
    if |s| < 2 then
      // |s| == 1 would trap, so the string is empty here
      if |s| == 0 then Some([]) else None
    else
      match parse(s[0], s[1])
      case None =>
        assert PairAt(s, 0, parse).None?;
        None
      case Some(b) =>
        TrapsExtend(s, parse);
        var rest := DecodePairs(s[2..], parse);
        ShiftAll(s, parse);
        if rest.None? then None else Some([b] + rest.value)
  }

  lemma ShiftAll(s: seq<char>, parse: PairParser)
    requires |s| >= 2
    ensures forall i: nat :: 2 * i + 3 < |s| ==> PairAt(s[2..], i, parse) == PairAt(s, i + 1, parse)
  {
    forall i: nat | 2 * i + 3 < |s| {
      PairAtShift(s, i, parse);
    }
  }

  /** The initializer as written: traps (precondition) where the loop runs off the string. */
  function DecodeHex(hex: seq<char>): (r: Option<seq<uint8>>)
    requires !Traps(RemoveSpaces(hex), ParsePair)
    ensures var cleaned := RemoveSpaces(hex);
      r.Some? ==> 2 * |r.value| == |cleaned|
    ensures var cleaned := RemoveSpaces(hex);
      r.Some? ==> forall i: nat :: i < |r.value| ==> PairAt(cleaned, i, ParsePair) == Some(r.value[i])
    ensures r.None? ==> exists i: nat :: i < |RemoveSpaces(hex)| / 2 && PairAt(RemoveSpaces(hex), i, ParsePair).None?
    ensures (exists i: nat :: i < |RemoveSpaces(hex)| / 2 && PairAt(RemoveSpaces(hex), i, ParsePair).None?) ==> r.None?
  {
    DecodePairs(RemoveSpaces(hex), ParsePair)
  }

  /**
   * The initializer's own loop: `index` walks the cleaned string two
   * characters at a time, appending one byte per pair.
   */
  method DecodeHexLoop(hex: seq<char>) returns (r: Option<seq<uint8>>)
    requires !Traps(RemoveSpaces(hex), ParsePair)
    ensures r == DecodeHex(hex)
  {
    var cleaned := RemoveSpaces(hex);
    var data: seq<uint8> := [];
    var index := 0;
    while index < |cleaned|
      invariant index % 2 == 0 && index <= |cleaned|
      invariant 2 * |data| == index
      invariant forall i: nat :: i < |data| ==> PairAt(cleaned, i, ParsePair) == Some(data[i])
    {
      RoomOrTrap(cleaned, index, ParsePair);
      var byte := ParsePair(cleaned[index], cleaned[index + 1]);
      if byte.None? {
        assert PairAt(cleaned, index / 2, ParsePair).None?;
        return None;
      }
      data := data + [byte.value];
      index := index + 2;
    }
    assert forall i: nat :: i < |cleaned| / 2 ==> PairAt(cleaned, i, ParsePair).Some? by {
      forall i: nat | i < |cleaned| / 2
        ensures PairAt(cleaned, i, ParsePair).Some?
      {
        assert i < |data|;
      }
    }
    var expected := DecodeHex(hex);
    assert expected.value == data;
    r := Some(data);
  }

  /** On an even-length string, every pair is two hex digits exactly when every character is one. */
  lemma StrictPairsIffDigits(c: seq<char>)
    requires |c| % 2 == 0
    ensures (forall i: nat :: i < |c| / 2 ==> PairAt(c, i, StrictPair).Some?) <==>
            (forall k :: 0 <= k < |c| ==> IsHexDigit(c[k]))
  {
    if forall i: nat :: i < |c| / 2 ==> PairAt(c, i, StrictPair).Some? {
      forall k | 0 <= k < |c|
        ensures IsHexDigit(c[k])
      {
        assert PairAt(c, k / 2, StrictPair).Some?;
      }
    }
  }

  /**
   * The decoder the initializer evidently intends: an odd number of
   * characters after cleaning, or any character that is not a hex digit,
   * gives `None`; a sign is not a digit.
   */
  function DecodeHexStrict(hex: seq<char>): (r: Option<seq<uint8>>)
    ensures var cleaned := RemoveSpaces(hex);
      r.Some? <==> (|cleaned| % 2 == 0 && forall k :: 0 <= k < |cleaned| ==> IsHexDigit(cleaned[k]))
    ensures var cleaned := RemoveSpaces(hex);
      r.Some? ==> 2 * |r.value| == |cleaned|
    ensures var cleaned := RemoveSpaces(hex);
      r.Some? ==> forall i: nat :: i < |r.value| ==> r.value[i] == ByteOf(cleaned[2 * i], cleaned[2 * i + 1])
  {
    var cleaned := RemoveSpaces(hex);
    if |cleaned| % 2 == 1 then None
    else
      StrictPairsIffDigits(cleaned);
      DecodePairs(cleaned, StrictPair)
  }

  /** Where every character is a hex digit, the strict decoder and the initializer agree. */
  lemma StrictAgreesOnDigits(hex: seq<char>)
    requires |RemoveSpaces(hex)| % 2 == 0
    requires forall k :: 0 <= k < |RemoveSpaces(hex)| ==> IsHexDigit(RemoveSpaces(hex)[k])
    ensures !Traps(RemoveSpaces(hex), ParsePair)
    ensures DecodeHex(hex) == DecodeHexStrict(hex)
  {
    var cleaned := RemoveSpaces(hex);
    assert forall i: nat :: i < |cleaned| / 2 ==> PairAt(cleaned, i, ParsePair).Some? by {
      forall i: nat | i < |cleaned| / 2
        ensures PairAt(cleaned, i, ParsePair).Some?
      {
        assert IsHexDigit(cleaned[2 * i]) && IsHexDigit(cleaned[2 * i + 1]);
      }
    }
    var r := DecodeHex(hex);
    var v := DecodeHexStrict(hex).value;
    assert r.value == v;
  }

  /** A signed pair is a byte to the initializer, but not a pair of hex digits. */
  lemma DecodeHexAcceptsSignedPairs(h: seq<char>)
    requires h == "+a-0"
    ensures !Traps(RemoveSpaces(h), ParsePair)
    ensures DecodeHex(h) == Some([10, 0])
    ensures DecodeHexStrict(h) == None
  {
    RemoveSpacesKeepsSpaceFree(h);
    assert PairAt(h, 0, ParsePair) == Some(10);
    assert PairAt(h, 1, ParsePair) == Some(0);
    assert !IsHexDigit(h[0]);
    var v := DecodeHex(h).value;
    assert v == [10, 0];
  }

  /** An odd number of hex digits runs the initializer's loop off the string. */
  lemma DecodeHexTrapsOnOddLength(h: seq<char>)
    requires h == "abc"
    ensures Traps(RemoveSpaces(h), ParsePair)
    ensures DecodeHexStrict(h) == None
  {
    assert PairAt(h, 0, ParsePair).Some?;
    assert Traps(h, ParsePair);
    RemoveSpacesKeepsSpaceFree(h);
  }

  /** The two lower-case digits of one byte, high nibble first. */
  function HexPair(b: uint8): (pair: seq<char>)
    ensures |pair| == 2 && IsHexDigit(pair[0]) && IsHexDigit(pair[1])
    ensures ByteOf(pair[0], pair[1]) == b
  {
    [LowerHexDigit(b as int / 16), LowerHexDigit(b as int % 16)]
  }

  /** Two lower-case digits per byte. */
  function EncodeHex(bytes: seq<uint8>): (h: seq<char>)
    ensures |h| == 2 * |bytes|
    ensures forall k :: 0 <= k < |h| ==> IsHexDigit(h[k]) && h[k] != ' '
    ensures forall i :: 0 <= i < |bytes| ==> ByteOf(h[2 * i], h[2 * i + 1]) == bytes[i]
  {
    if |bytes| == 0 then []
    else
      var rest := EncodeHex(bytes[1..]);
      var h := HexPair(bytes[0]) + rest;
      assert forall i :: 1 <= i < |bytes| ==> ByteOf(h[2 * i], h[2 * i + 1]) == bytes[i] by {
        forall i | 1 <= i < |bytes|
          ensures ByteOf(h[2 * i], h[2 * i + 1]) == bytes[i]
        {
          var j := i - 1;
          assert h[2 * i] == rest[2 * j] && h[2 * i + 1] == rest[2 * j + 1];
          assert bytes[i] == bytes[1..][j];
        }
      }
      h
  }

  /** The same digits, one space between bytes, as in `"00 11 22"`. */
  function EncodeHexSpaced(bytes: seq<uint8>): (h: seq<char>)
    ensures |bytes| > 0 ==> |h| == 3 * |bytes| - 1
    decreases |bytes|
  {
    if |bytes| <= 1 then EncodeHex(bytes)
    else EncodeHex(bytes[..1]) + [' '] + EncodeHexSpaced(bytes[1..])
  }

  lemma {:induction false} RemoveSpacesOfSpaced(bytes: seq<uint8>)
    ensures RemoveSpaces(EncodeHexSpaced(bytes)) == EncodeHex(bytes)
    decreases |bytes|
  {
    if |bytes| <= 1 {
      RemoveSpacesKeepsSpaceFree(EncodeHex(bytes));
    } else {
      var head := EncodeHex(bytes[..1]);
      var tail := EncodeHexSpaced(bytes[1..]);
      RemoveSpacesAppend(head + [' '], tail);
      RemoveSpacesAppend(head, [' ']);
      RemoveSpacesKeepsSpaceFree(head);
      assert RemoveSpaces([' ']) == [];
      RemoveSpacesOfSpaced(bytes[1..]);
      EncodeHexAppend(bytes[..1], bytes[1..]);
      calc {
        RemoveSpaces(EncodeHexSpaced(bytes));
        RemoveSpaces(head + [' '] + tail);
        RemoveSpaces(head) + RemoveSpaces([' ']) + RemoveSpaces(tail);
        head + EncodeHex(bytes[1..]);
        { assert bytes == bytes[..1] + bytes[1..]; }
        EncodeHex(bytes);
      }
    }
  }

  lemma {:induction false} EncodeHexAppend(a: seq<uint8>, b: seq<uint8>)
    ensures EncodeHex(a + b) == EncodeHex(a) + EncodeHex(b)
    decreases |a|
  {
    if |a| == 0 {
      assert a + b == b;
    } else {
      assert (a + b)[1..] == a[1..] + b;
      EncodeHexAppend(a[1..], b);
    }
  }

  /** Decoding the hex encoding of any bytes gives them back. */
  lemma {:induction false} HexRoundTrip(bytes: seq<uint8>)
    ensures DecodeHexStrict(EncodeHex(bytes)) == Some(bytes)
  {
    var h := EncodeHex(bytes);
    RemoveSpacesKeepsSpaceFree(h);
    var v := DecodeHexStrict(h).value;
    assert v == bytes;
  }

  /** The initializer as written decodes the same encoding without trapping, to the same bytes. */
  lemma {:induction false} HexRoundTripAsWritten(bytes: seq<uint8>)
    ensures !Traps(RemoveSpaces(EncodeHex(bytes)), ParsePair)
    ensures DecodeHex(EncodeHex(bytes)) == Some(bytes)
  {
    var h := EncodeHex(bytes);
    RemoveSpacesKeepsSpaceFree(h);
    HexRoundTrip(bytes);
    StrictAgreesOnDigits(h);
  }

  /** Space-separated byte pairs decode to the same bytes. */
  lemma {:induction false} HexRoundTripSpaced(bytes: seq<uint8>)
    ensures DecodeHexStrict(EncodeHexSpaced(bytes)) == Some(bytes)
  {
    RemoveSpacesOfSpaced(bytes);
    HexRoundTrip(bytes);
    var h := EncodeHexSpaced(bytes);
    var v := DecodeHexStrict(h).value;
    assert v == bytes;
  }

  /** A character that is not a hex digit, at any position, makes the strict decoder fail. */
  lemma StrictRejectsNonDigit(hex: seq<char>, k: nat)
    requires k < |RemoveSpaces(hex)| && !IsHexDigit(RemoveSpaces(hex)[k])
    ensures DecodeHexStrict(hex) == None
  {
  }
}

=== FILE: ints.dfy ===
/** The fixed-width integer types the Swift code uses, as subsets of `int`. */
module Ints {

  /** Swift `UInt8`: one byte of a `Data` value. */
  newtype uint8 = x: int | 0 <= x < 0x100

  /** Swift `Int32`, the C type of `CCCryptorStatus`. */
  newtype int32 = x: int | -0x8000_0000 <= x < 0x8000_0000

  /** Swift `UInt32`. Converting into it traps outside its range, like `UInt32(_:)`. */
  newtype uint32 = x: int | 0 <= x < 0x1_0000_0000

  function Min(a: int, b: int): (m: int)
    ensures m <= a && m <= b
    ensures m == a || m == b
  {
    if a <= b then a else b
  }
}

=== FILE: pkcs7.dfy ===
/**
 * PKCS#7 padding (section 6.3 of RFC 5652) and `removePKCS7Padding`, which
 * reads the last byte `p` and drops the last `p` bytes without looking at
 * them. The Swift function checks nothing: an empty input or `p` larger than
 * the input makes one of its ranges invalid, which traps.
 */
module Pkcs7 {
  import opened Wrappers
  import opened Ints
  import opened CommonCrypto

  /** The padding length byte: the last byte of `data`. */
  function LastByte(data: seq<uint8>): uint8
    requires |data| > 0
  {
    data[|data| - 1]
  }

  /**
   * `removePKCS7Padding(from:)` as written. The range `count - 1 ..< count`
   * needs a last byte, and `0 ..< count - p` needs `p <= count`; both are
   * traps in Swift, so both are preconditions here.
   */
  function RemovePkcs7Padding(data: seq<uint8>): (r: seq<uint8>)
    requires |data| > 0
    requires LastByte(data) as int <= |data|
    ensures |r| + LastByte(data) as int == |data|
    ensures data == r + data[|r|..]
    ensures LastByte(data) == 0 ==> r == data
  {
    data[..|data| - LastByte(data) as int]
  }

  /** `n` copies of the byte `b`. */
  function Repeat(b: uint8, n: nat): (r: seq<uint8>)
    ensures |r| == n
    ensures forall i :: 0 <= i < n ==> r[i] == b
  {
    seq(n, _ => b)
  }

  /** The block size: AES blocks are 16 bytes. */
  const BlockSize: nat := kCCBlockSizeAES128

  /**
   * Data padded to whole blocks as section 6.3 of RFC 5652 defines it:
   * ending in `p` bytes of value `p`, with `1 <= p <= BlockSize`.
   */
  predicate IsPkcs7Padded(data: seq<uint8>) {
    && |data| > 0
    && |data| % BlockSize == 0
    && 1 <= LastByte(data) as int <= BlockSize
    && LastByte(data) as int <= |data|
    && forall i :: |data| - LastByte(data) as int <= i < |data| ==> data[i] == LastByte(data)
  }

  /** PKCS#7 padding of `m`: between 1 and `BlockSize` bytes, all equal to their count. */
  function Pad(m: seq<uint8>): (r: seq<uint8>)
    ensures |m| < |r| <= |m| + BlockSize
    ensures r[..|m|] == m
    ensures IsPkcs7Padded(r)
    ensures LastByte(r) as int == |r| - |m|
  {
    var p := BlockSize - |m| % BlockSize;
    m + Repeat(p as uint8, p)
  }

  /** Removing the padding of padded data gives the message back. */
  lemma UnpadInvertsPad(m: seq<uint8>)
    ensures LastByte(Pad(m)) as int <= |Pad(m)|
    ensures RemovePkcs7Padding(Pad(m)) == m
  {
  }

  /**
   * The padding bytes are never read: `m` followed by any `f` and a length
   * byte that covers `f` unpads to `m`, whatever the bytes of `f` are.
   */
  lemma UnpadTrustsLengthByte(m: seq<uint8>, f: seq<uint8>)
    requires |f| < 0xFF
    ensures var d := m + f + [(|f| + 1) as uint8];
      LastByte(d) as int <= |d| && RemovePkcs7Padding(d) == m
  {
    var d := m + f + [(|f| + 1) as uint8];
    assert d[..|m|] == m;
  }

  /**
   * The check `removePKCS7Padding` evidently intends: padding is removed only
   * when it is well-formed, and the result is then the one message whose
   * padding gives back `data`.
   */
  function RemovePkcs7PaddingChecked(data: seq<uint8>): (r: Option<seq<uint8>>)
    ensures r.Some? <==> IsPkcs7Padded(data)
    ensures r.Some? ==> Pad(r.value) == data
  {
    if IsPkcs7Padded(data) then
      var m := RemovePkcs7Padding(data);
      assert Pad(m) == data;
      Some(m)
    else
      None
  }

  lemma CheckedUnpadInvertsPad(m: seq<uint8>)
    ensures RemovePkcs7PaddingChecked(Pad(m)) == Some(m)
  {
  }

  /**
   * A block whose length byte is 2 but whose other padding byte is 7:
   * `removePKCS7Padding` strips it anyway, the checked removal refuses it.
   */
  lemma UnpadAcceptsMalformedPadding(d: seq<uint8>)
    requires d == Repeat(0x41, 14) + [0x07, 0x02]
    ensures LastByte(d) as int <= |d|
    ensures !IsPkcs7Padded(d)
    ensures RemovePkcs7Padding(d) == Repeat(0x41, 14)
    ensures RemovePkcs7PaddingChecked(d) == None
  {
    assert d[14] == 0x07;
    assert d[..14] == Repeat(0x41, 14);
  }
}

=== FILE: wrappers.dfy ===
/** Optional values: Swift's `T?`, where `nil` is `None`. */
module Wrappers {

  datatype Option<+T> = None | Some(value: T)
}
